=== FILE: README.md ===
# Road accident dashboard — a Dafny model of its data core

The dashboard loads a table of road accidents and works out which column plays each
analytical role: location, severity, casualties, speed limit, day of week, weather,
road condition, latitude and longitude. It then filters the rows by an accident-date
range, a set of locations and a set of severities, and derives its figures from the
filtered rows: the total count, the accidents per day, the severity and top-10 weather
value counts, a scatter sample of at most 1000 rows, and at most 500 map points.

This project models that data path as pure Dafny functions and proves what it computes:

- `text.dfy` (`Text`) has ASCII lower-casing and substring search, Python's `sub in s`.
- `schema.dfy` (`Schema`) has the column-role rules and the first-match resolver,
  Python's `next(..., None)`. The resolved map is a `RoleMap` with one `Option` per role.
- `table.dfy` (`Table`) holds a row, which is an accident date given as a day number plus
  a map from column names to cell values; a missing key is a missing (NaN) cell. It also
  has boolean-mask selection, `df[mask]`, and a reference filter `Keep`.
- `filter.dfy` (`Filter`) builds the mask the way the dashboard does: first the date
  range, then `&=` the location filter, then `&=` the severity filter. It states the
  per-row predicate that this mask encodes.
- `tally.dfy` (`Tally`) has the count tables: `value_counts` in first-appearance order,
  `groupby(date).size()` in ascending day order, and `nlargest(n)` by repeated selection
  of the first maximum.
- `aggregate.dfy` (`Aggregate`) holds the dashboard's figures, computed from the filtered rows.
- `scenarios.dfy` (`Scenarios`) has concrete cases: the usual UK accident header, a
  one-day range, an empty selection, and a table too large to map in full.
- `wrappers.dfy` (`Wrappers`) has `Option`.

Randomness is a parameter. The row sample for the scatter plot is given as a selection
mask `draw`. When there are more than 1000 filtered rows, the mask selects exactly 1000
of them. Otherwise every row is kept.

## Model

| member | source | states |
|---|---|---|
| Schema.FirstMatch | roadaccident.py:35-43 | The result is `None` exactly when no column satisfies the role's rule. Otherwise it is a column that satisfies the rule with no earlier column satisfying it. |
| Schema.Resolve | roadaccident.py:34-44 | Every one of the nine roles is resolved independently, to the first matching column in column order. |
| Schema.ResolvedRoleIsFirstMatch | roadaccident.py:34-44 | A role of the resolved map is unresolved iff no column matches it. When it is resolved, it names a column that matches, with no earlier column matching. |
| Schema.MatchingColumnResolves | roadaccident.py:34-44 | If any column satisfies a role's rule, that role is resolved. |
| Schema.SubstringRulesIgnoreCase | roadaccident.py:35-41 | The location, severity, speed, weather and road rules give the same answer for two names that lower-case alike. |
| Schema.AliasRulesAreExact | roadaccident.py:37-43 | The casualties, day, latitude and longitude rules accept a name iff it is literally one of the role's aliases. |
| Schema.ResolvedNamesAreNonEmpty | roadaccident.py:53-70 | A resolved column name is never the empty string, so the truthiness test `if columns_info[role]` is the same as "the role is resolved". |
| Schema.FirstMatchAppend | roadaccident.py:35-43 | Appending columns does not change a role that is already resolved. An unresolved role is resolved by the appended columns alone. |
| Text.Lower | roadaccident.py:35 | Lower-casing keeps the length, maps each character to its lower-case form, and leaves no upper-case letter. |
| Text.ContainsIffOccurs | roadaccident.py:35 | The substring test `sub in s` holds iff `sub` occurs at some position of `s`. |
| Table.Select | roadaccident.py:72 | `df[mask]` keeps as many rows as the mask has `True` entries, and keeps them in their original order. |
| Table.SelectOne | roadaccident.py:72 | A one-row table keeps its row exactly when that row's mask entry is true. |
| Table.SelectAppend | roadaccident.py:72 | Selecting from two tables placed end to end, with their masks placed end to end, gives the two selections end to end. With `Table.SelectOne` this fixes which rows are kept for any mask. |
| Filter.Apply | roadaccident.py:72-76 | The filtered table is an order-preserving subsequence of the input. Its length, the "Total Accidents" figure, is the number of rows the mask admits. |
| Filter.Mask | roadaccident.py:61-70 | The mask has one entry per row. An entry is true iff its row passes the date test, the location test and the severity test. |
| Filter.ApplyIsKeep | roadaccident.py:61-72 | The filtered table is exactly the input rows that satisfy the per-row predicate, in their original order. |
| Filter.FilteredRowsAreThePassingRows | roadaccident.py:61-72 | A row belongs to the filtered table iff it is an input row that passes every active filter. |
| Filter.ApplyAppend | roadaccident.py:72 | Filtering works row by row: filtering a concatenation gives the concatenation of the two filtered parts. |
| Filter.ApplyIdempotent | roadaccident.py:61-72 | Filtering an already filtered table again changes nothing. |
| Filter.ApplyNarrows | roadaccident.py:61-72 | Criteria that admit fewer rows give a subsequence of the filtered table. |
| Filter.AddingFilterNeverAddsRows | roadaccident.py:61-70 | Adding a date range, a location selection or a severity selection gives a subsequence of the table filtered without it. |
| Filter.NoCriteriaKeepsEveryRow | roadaccident.py:61-64 | With a range that does not hold exactly two dates, and with no location or severity selected, every row is kept. |
| Filter.CategoryPredicateCases | roadaccident.py:66-70 | A category filter is skipped when its role is unresolved or nothing is selected. Otherwise it keeps the rows whose cell is present and among the selection; a missing cell never passes. |
| Tally.ValueCounts | roadaccident.py:107 | Each value's count equals the number of times it occurs. The keys are exactly the distinct values, each listed once, and every count is positive. The counts sum to the number of values. |
| Tally.DailyCounts | roadaccident.py:92 | The days are strictly ascending and each day's count is its number of occurrences. The keys are exactly the days present, the counts are positive, and they sum to the number of rows. |
| Tally.TopN | roadaccident.py:113 | `nlargest(n)` has min(n, size of the table) entries. |
| Tally.TopNKeepsLargest | roadaccident.py:113 | An entry left out of the top n has a count no larger than any entry kept. |
| Tally.LeftOutKeyIsNoLarger | roadaccident.py:113 | A key of a distinct-key table left out of the top n has a count no larger than any kept entry. |
| Tally.TopCountsAreExact | roadaccident.py:113 | Each entry of `value_counts().nlargest(n)` carries its value's exact number of occurrences, which is at least one. |
| Tally.TopCountsAreMostFrequent | roadaccident.py:113 | A value left out of `value_counts().nlargest(n)` occurs no more often than any value that is kept. |
| Tally.TopNDescending | roadaccident.py:113 | The top n are listed in non-increasing order of count. |
| Tally.TopNDistinct | roadaccident.py:113 | Selecting the top n of a table with distinct keys repeats no key. |
| Aggregate.DailyTrend | roadaccident.py:92 | The days of the trend are strictly ascending, and every day maps to the number of filtered rows dated that day. A day with no rows maps to 0. |
| Aggregate.DailyTrendCounts | roadaccident.py:92 | The trend lists each date of the filtered rows once, in ascending order, with its number of accidents. The counts sum to the "Total Accidents" figure. |
| Aggregate.ColumnValues | roadaccident.py:107 | A value is collected iff some row holds it in the column, and there are never more values than rows. Missing cells are dropped, as `value_counts` drops NaN. |
| Aggregate.ColumnValuesOne | roadaccident.py:107 | One row contributes its cell's value when the cell is present, and nothing when it is missing. |
| Aggregate.ColumnValuesAppend | roadaccident.py:107 | The values of two tables placed end to end are the two value lists end to end. With `Aggregate.ColumnValuesOne` this gives one value per row with a present cell, in row order, so every count is exact. |
| Aggregate.SeverityCounts | roadaccident.py:106-107 | The severity breakdown exists iff the severity role is resolved. It then gives each severity its exact number of occurrences among the non-missing cells, lists each severity present once, and its counts sum to the number of non-missing cells. |
| Aggregate.WeatherTop | roadaccident.py:112-113 | The weather chart exists iff the weather role is resolved, and it has at most 10 bars. |
| Aggregate.WeatherTopCounts | roadaccident.py:113 | Each charted weather condition is distinct, occurs in the filtered rows, and carries its exact number of occurrences. The bars are in non-increasing order. |
| Aggregate.WeatherTopIsMostFrequent | roadaccident.py:113 | A weather condition that is left off the chart occurs no more often than any condition charted. |
| Aggregate.WeatherTopSizeIsCapped | roadaccident.py:113 | The chart has exactly min(10, number of distinct conditions) bars. |
| Aggregate.ScatterSample | roadaccident.py:119-121 | The sample exists iff speed, casualties and road are all resolved. It has min(1000, n) rows, and as a multiset it is contained in the filtered rows. |
| Aggregate.MapPoints | roadaccident.py:126-131 | The map exists iff latitude and longitude are both resolved. It holds at most 500 points, and every point has both coordinates. |
| Aggregate.MapPointsArePrefix | roadaccident.py:128-131 | The points are the first min(500, m) of the m filtered rows that have both coordinates. They form an order-preserving subsequence of the filtered rows. |
| Scenarios.UsualHeaderResolvesEveryRole | roadaccident.py:34-44 | The usual UK accident header resolves all nine roles. |
| Scenarios.AliasesAreCaseSensitive | roadaccident.py:42 | `lat` and `Lat` are latitude columns but `LAT` is not. |
| Scenarios.OneDayRangeKeepsThatDay | roadaccident.py:61-76 | With a one-day range, only the rows of that day remain, and the total counts them. |
| Scenarios.LargeTableMapsFirstRows | roadaccident.py:128-131 | When every filtered row has both coordinates and there are more than 500, the map shows exactly the first 500 rows. |
| Scenarios.EmptySelectionSummary | roadaccident.py:76-131 | An empty filtered table gives a zero total, an empty trend, empty value counts and no map points. |

## Left out

- Loading the Excel sheet, parsing `Accident Date` and dropping undated rows (lines 15-32). Every modelled row is dated, and its accident date is an integer day number. The default date range (lines 48-50) is part of the user interface.
- The Streamlit sidebar, tabs, metrics and Plotly/Folium rendering. Only the data passed to them is modelled.
- Average casualties (line 79) and maximum speed limit (line 84). These are floating-point and NaN-skipping reductions over cells whose numeric type is not modelled.
- The map centre (line 132), a floating-point mean of the coordinates, and the marker loop that follows it.
- The day-of-week chart (lines 96-103). Its value counts are the same `Tally.ValueCounts`; the weekday categorical reordering is not modelled.
- Filter.Mask: a table is a sequence of rows, so its row labels are taken to be 0..n-1. After `dropna` (line 21) the surviving rows keep their original labels. The fallback mask at line 64 is labelled 0..n-1 instead, so when a dropped undated row is followed by a kept row (the surviving labels are no longer 0..n-1) and the range does not hold two dates, `df[mask]` at line 72 cannot align the labels and pandas raises an error, while the model keeps every row. When the dropped rows all come after the kept ones, the labels are still 0..n-1 and pandas keeps every row, as the model does. Column names are also taken to be strings. A non-string header makes the first substring rule (lines 35, 36, 38, 40 or 41) that reaches it before finding a match raise an error. When every substring rule matches an earlier column, the header is never lower-cased and the alias rules simply do not match it. Non-string headers are not modelled.
- Filter.Apply: the accident date is a day number, so a time of day is not modelled. With a time component, the inclusive upper bound `<= Timestamp(end)` would drop accidents later than midnight on the last day. The model keeps the whole last day.
- Tally.ValueCounts and Aggregate.SeverityCounts: pandas orders `value_counts` by descending count, with its own tie order. The model lists values in first-appearance order. The properties proved are about the counts, not the order.
- Tally.TopN: ties at the cut-off of `nlargest(10)` go to the entry listed first. pandas's own tie rule depends on its input order, which is not modelled.
- Aggregate.ScatterSample: `sample` is random. The draw is a parameter, and the contract says what any admissible draw yields; the order pandas returns the sampled rows in is not modelled.
- Aggregate.MapPoints: when no row has coordinates, the dashboard still draws the subheader (line 127) and shows a warning (line 145) instead of a map. The model returns an empty list of points.
- Text.Lower: only ASCII letters are lower-cased. Python's full Unicode `lower()` is not modelled.

=== FILE: aggregate.dfy ===
/**
 The aggregates the dashboard derives from the filtered table: the total count, the
 per-day trend, the severity and top-10 weather value counts, the capped scatter sample
 and the capped list of map points.
 */
module Aggregate {
  import opened Wrappers
  import opened Table
  import opened Schema
  import opened Tally

  /** At most this many weather conditions are charted. */
  const WeatherTopSize: nat := 10
  /** At most this many rows are drawn for the speed/casualties scatter plot. */
  const ScatterCap: nat := 1000
  /** At most this many rows are placed on the map. */
  const MapCap: nat := 500

  function Min(a: nat, b: nat): nat
  {
    if a < b then a else b
  }

  /** The "Total Accidents" metric. */
  function TotalAccidents(filtered: seq<Row>): nat
  {
    |filtered|
  }

  /** The accident date of every row, in row order. */
  function Dates(rows: seq<Row>): (ds: seq<int>)
    ensures |ds| == |rows|
    ensures forall i :: 0 <= i < |rows| ==> ds[i] == rows[i].date
  {
    seq(|rows|, i requires 0 <= i < |rows| => rows[i].date)
  }

  /** The non-missing values of column `col`, in row order (what `value_counts` counts). */
  function ColumnValues(rows: seq<Row>, col: string): (vs: seq<string>)
    ensures |vs| <= |rows|
    ensures forall v :: v in vs <==> exists i :: 0 <= i < |rows| && Cell(rows[i], col) == Some(v)
  {
    if rows == [] then []
    else
      var rest := ColumnValues(rows[1..], col);
      assert forall i :: 1 <= i < |rows| ==> rows[i] == rows[1..][i - 1];
      match Cell(rows[0], col)
      case Some(v) => [v] + rest
      case None => rest
  }

  /** A single row contributes its value when the cell is present and nothing when it is missing. */
  lemma ColumnValuesOne(row: Row, col: string)
    ensures ColumnValues([row], col) == match Cell(row, col) case Some(v) => [v] case None => []
  {
    assert [row][1..] == [];
  }

  /**
   Collecting values distributes over concatenation of tables. With `ColumnValuesOne` this
   fixes every value and its multiplicity: one entry per row whose cell is present, in row order.
   */
  lemma {:induction false} ColumnValuesAppend(a: seq<Row>, b: seq<Row>, col: string)
    ensures ColumnValues(a + b, col) == ColumnValues(a, col) + ColumnValues(b, col)
  {
    if a == [] {
      assert a + b == b;
    } else {
      assert (a + b)[0] == a[0];
      assert (a + b)[1..] == a[1..] + b;
      ColumnValuesAppend(a[1..], b, col);
      match Cell(a[0], col)
      case Some(v) =>
        assert [v] + (ColumnValues(a[1..], col) + ColumnValues(b, col))
          == ([v] + ColumnValues(a[1..], col)) + ColumnValues(b, col);
      case None =>
    }
  }

  /** `groupby(date).size()`: the number of accidents per day, in ascending day order. */
  function DailyTrend(filtered: seq<Row>): (t: seq<Count<int>>)
    ensures StrictlyAscending(t)
    ensures forall d :: Lookup(t, d) == Occurrences(Dates(filtered), d)
  {
    DailyCounts(Dates(filtered))
  }

  /** `value_counts()` of the severity column, or `None` when the role is unresolved. */
  function SeverityCounts(filtered: seq<Row>, roles: RoleMap): (r: Option<seq<Count<string>>>)
    ensures r.Some? <==> roles.severity.Some?
    ensures r.Some? ==> var vals := ColumnValues(filtered, roles.severity.value);
      && (forall v :: Lookup(r.value, v) == Occurrences(vals, v))
      && KeySet(r.value) == set v | v in vals
      && DistinctKeys(r.value)
      && Total(r.value) == |vals|
  {
    match roles.severity
    case Some(col) => Some(ValueCounts(ColumnValues(filtered, col)))
    case None => None
  }

  /** `value_counts().nlargest(10)` of the weather column, or `None` when the role is unresolved. */
  function WeatherTop(filtered: seq<Row>, roles: RoleMap): (r: Option<seq<Count<string>>>)
    ensures r.Some? <==> roles.weather.Some?
    ensures r.Some? ==> |r.value| <= WeatherTopSize
  {
    match roles.weather
    case Some(col) => Some(TopN(ValueCounts(ColumnValues(filtered, col)), WeatherTopSize))
    case None => None
  }

  /**
   The rows drawn for the scatter plot, or `None` unless speed, casualties and road
   condition are all resolved. The random draw is the parameter `draw`: a selection that
   picks exactly `ScatterCap` rows whenever there are more rows than that.
   */
  function ScatterSample(filtered: seq<Row>, roles: RoleMap, draw: seq<bool>): (r: Option<seq<Row>>)
    requires |draw| == |filtered|
    requires |filtered| > ScatterCap ==> CountTrue(draw) == ScatterCap
    ensures r.Some? <==> roles.speed.Some? && roles.casualties.Some? && roles.road.Some?
    ensures r.Some? ==> |r.value| == Min(ScatterCap, |filtered|)
    ensures r.Some? ==> multiset(r.value) <= multiset(filtered)
  {
    if roles.speed.Some? && roles.casualties.Some? && roles.road.Some? then
      var size := Min(ScatterCap, |filtered|);
      if |filtered| > size then
        var sample := Select(filtered, draw);
        SubsequenceMultiset(sample, filtered);
        Some(sample)
      else
        Some(filtered)
    else
      None
  }

  /** `dropna(subset=[lat, long])`: the row has both coordinate cells. */
  predicate HasCoordinates(row: Row, lat: string, long: string)
  {
    Cell(row, lat).Some? && Cell(row, long).Some?
  }

  function HasCoordinatesFn(lat: string, long: string): Row -> bool
  {
    (row: Row) => HasCoordinates(row, lat, long)
  }

  /**
   The rows placed on the map, or `None` unless both coordinate roles are resolved:
   the rows with both coordinates, cut to the first `MapCap` of them (`head(500)`).
   */
  function MapPoints(filtered: seq<Row>, roles: RoleMap): (r: Option<seq<Row>>)
    ensures r.Some? <==> roles.lat.Some? && roles.long.Some?
    ensures r.Some? ==> |r.value| <= MapCap
    ensures r.Some? ==> forall p :: p in r.value ==> HasCoordinates(p, roles.lat.value, roles.long.value)
  {
    if roles.lat.Some? && roles.long.Some? then
      var mapData := Keep(filtered, HasCoordinatesFn(roles.lat.value, roles.long.value));
      KeepMembers(filtered, HasCoordinatesFn(roles.lat.value, roles.long.value));
      var points := if |mapData| > MapCap then mapData[..MapCap] else mapData;
      assert forall p :: p in points ==> p in mapData;
      Some(points)
    else
      None
  }

  // ---------------------------------------------------------------------------------
  // Properties

  /**
   The daily trend lists every accident day once, in strictly ascending order, each
   with the number of filtered rows dated that day (at least one), and the counts
   add up to the total.
   */
  lemma DailyTrendCounts(filtered: seq<Row>)
    ensures StrictlyAscending(DailyTrend(filtered))
    ensures AllPositive(DailyTrend(filtered))
    ensures KeySet(DailyTrend(filtered)) == set i | 0 <= i < |filtered| :: filtered[i].date
    ensures forall i :: 0 <= i < |DailyTrend(filtered)| ==>
      DailyTrend(filtered)[i].n == Occurrences(Dates(filtered), DailyTrend(filtered)[i].key)
    ensures Total(DailyTrend(filtered)) == TotalAccidents(filtered)
  {
    var t := DailyTrend(filtered);
    var ds := Dates(filtered);
    assert (set d | d in ds) == set i | 0 <= i < |filtered| :: filtered[i].date by {
      forall d | d in ds
        ensures d in set i | 0 <= i < |filtered| :: filtered[i].date
      {
        var i :| 0 <= i < |ds| && ds[i] == d;
      }
    }
    forall i | 0 <= i < |t|
      ensures t[i].n == Occurrences(ds, t[i].key)
    {
      LookupDistinct(t, i);
    }
  }

  /**
   The weather list pairs each listed condition with its number of filtered rows (at
   least one), lists each condition once, in non-increasing count order.
   */
  lemma WeatherTopCounts(filtered: seq<Row>, roles: RoleMap)
    requires roles.weather.Some?
    ensures var top := WeatherTop(filtered, roles).value;
      var vals := ColumnValues(filtered, roles.weather.value);
      && DistinctKeys(top)
      && Descending(top)
      && (forall m :: 0 <= m < |top| ==> top[m].n == Occurrences(vals, top[m].key) && top[m].n >= 1)
  {
    var vals := ColumnValues(filtered, roles.weather.value);
    var counts := ValueCounts(vals);
    var top := TopN(counts, WeatherTopSize);
    TopNDistinct(counts, WeatherTopSize);
    TopNDescending(counts, WeatherTopSize);
    forall m | 0 <= m < |top|
      ensures top[m].n == Occurrences(vals, top[m].key) && top[m].n >= 1
    {
      var i := TopNSource(counts, WeatherTopSize, m);
      LookupDistinct(counts, i);
    }
  }

  /** No weather condition left off the list occurs more often than any condition on it. */
  lemma WeatherTopIsMostFrequent(filtered: seq<Row>, roles: RoleMap)
    requires roles.weather.Some?
    ensures var top := WeatherTop(filtered, roles).value;
      var vals := ColumnValues(filtered, roles.weather.value);
      forall v, m :: v in vals && v !in KeySet(top) && 0 <= m < |top| ==> Occurrences(vals, v) <= top[m].n
  {
    var vals := ColumnValues(filtered, roles.weather.value);
    TopCountsAreMostFrequent(vals, WeatherTopSize);
    assert WeatherTop(filtered, roles).value == TopN(ValueCounts(vals), WeatherTopSize);
  }

  /**
   The weather list has ten entries, or every distinct condition when there are
   fewer than ten.
   */
  lemma WeatherTopSizeIsCapped(filtered: seq<Row>, roles: RoleMap)
    requires roles.weather.Some?
    ensures var vals := ColumnValues(filtered, roles.weather.value);
      |WeatherTop(filtered, roles).value| == Min(WeatherTopSize, |set v | v in vals|)
  {
    var vals := ColumnValues(filtered, roles.weather.value);
    DistinctKeyCount(ValueCounts(vals));
  }

  /**
   The map points are the first `Min(MapCap, n)` of the `n` filtered rows that carry both
   coordinates, in filtered order, and every point carries both coordinates.
   */
  lemma MapPointsArePrefix(filtered: seq<Row>, roles: RoleMap)
    requires roles.lat.Some? && roles.long.Some?
    ensures var lat, long := roles.lat.value, roles.long.value;
      var withCoords := Keep(filtered, HasCoordinatesFn(lat, long));
      var points := MapPoints(filtered, roles).value;
      && |points| == Min(MapCap, |withCoords|)
      && points == withCoords[..|points|]
      && (forall p :: p in points ==> p in filtered && HasCoordinates(p, lat, long))
      && IsSubsequence(points, filtered)
  {
    var lat, long := roles.lat.value, roles.long.value;
    var withCoords := Keep(filtered, HasCoordinatesFn(lat, long));
    var points := MapPoints(filtered, roles).value;
    KeepMembers(filtered, HasCoordinatesFn(lat, long));
    SelectMaskOfIsKeep(filtered, HasCoordinatesFn(lat, long));
    PrefixIsSubsequence(withCoords, |points|);
    assert withCoords[..|withCoords|] == withCoords;
    SubsequenceTransitive(points, withCoords, filtered);
  }
}

=== FILE: filter.dfy ===
/**
 The filter engine: the row mask built from the date range, the location selection and
 the severity selection, and the filtered table it selects.
 */
module Filter {
  import opened Wrappers
  import opened Table
  import opened Schema

  /**
   What the user picked: the date-range widget's value (normally two day numbers),
   and the multiselect lists of accepted locations and severities.
   */
  datatype Criteria = Criteria(dateRange: seq<int>, locations: seq<string>, severities: seq<string>)

  /** Reference date predicate: any range not of exactly two entries filters nothing. */
  predicate InDateRange(range: seq<int>, date: int)
  {
    |range| != 2 || (range[0] <= date && date <= range[1])
  }

  /** A categorical selection narrows the mask only for a resolved role and a non-empty list. */
  predicate Narrows(col: Option<string>, sel: seq<string>)
  {
    col.Some? && |sel| > 0
  }

  /** pandas `isin`: the cell is present and one of the selected values. */
  predicate IsIn(row: Row, col: string, sel: seq<string>)
  {
    Cell(row, col).Some? && Cell(row, col).value in sel
  }

  /** Reference categorical predicate for one role. */
  predicate PassesCategory(row: Row, col: Option<string>, sel: seq<string>)
  {
    !Narrows(col, sel) || IsIn(row, col.value, sel)
  }

  /** Reference row predicate: the conjunction of the three filters. */
  predicate Passes(row: Row, roles: RoleMap, c: Criteria)
  {
    && InDateRange(c.dateRange, row.date)
    && PassesCategory(row, roles.location, c.locations)
    && PassesCategory(row, roles.severity, c.severities)
  }

  /** The reference predicate as a function value, for use with `Keep`. */
  function PassesFn(roles: RoleMap, c: Criteria): Row -> bool
  {
    (row: Row) => Passes(row, roles, c)
  }

  /** Element-wise `&` of two masks of equal length. */
  function And(a: seq<bool>, b: seq<bool>): (m: seq<bool>)
    requires |a| == |b|
    ensures |m| == |a|
    ensures forall i :: 0 <= i < |a| ==> (m[i] <==> a[i] && b[i])
  {
    seq(|a|, i requires 0 <= i < |a| => a[i] && b[i])
  }

  /**
   The date mask: inclusive bounds when the range has two entries, all true otherwise.
   */
  function DateMask(rows: seq<Row>, range: seq<int>): (m: seq<bool>)
    ensures |m| == |rows|
    ensures forall i :: 0 <= i < |rows| ==> (m[i] <==> InDateRange(range, rows[i].date))
  {
    if |range| == 2 then
      var lo, hi := range[0], range[1];
      MaskOf(rows, (row: Row) => lo <= row.date && row.date <= hi)
    else
      seq(|rows|, _ => true)
  }

  /** The `isin` mask of one categorical column. */
  function IsInMask(rows: seq<Row>, col: string, sel: seq<string>): (m: seq<bool>)
    ensures |m| == |rows|
  {
    MaskOf(rows, (row: Row) => IsIn(row, col, sel))
  }

  /** `mask &= isin(...)`, applied only when the selection narrows. */
  function NarrowMask(rows: seq<Row>, mask: seq<bool>, col: Option<string>, sel: seq<string>): (m: seq<bool>)
    requires |mask| == |rows|
    ensures |m| == |rows|
    ensures forall i :: 0 <= i < |rows| ==> (m[i] <==> mask[i] && PassesCategory(rows[i], col, sel))
  {
    if Narrows(col, sel) then And(mask, IsInMask(rows, col.value, sel)) else mask
  }

  /**
   The mask in the order the dashboard builds it: date first, then location, then severity.
   Each entry is the conjunction of the three reference predicates for its row.
   */
  function Mask(rows: seq<Row>, roles: RoleMap, c: Criteria): (m: seq<bool>)
    ensures |m| == |rows|
    ensures forall i :: 0 <= i < |rows| ==> (m[i] <==> Passes(rows[i], roles, c))
  {
    var m0 := DateMask(rows, c.dateRange);
    var m1 := NarrowMask(rows, m0, roles.location, c.locations);
    NarrowMask(rows, m1, roles.severity, c.severities)
  }

  /** `df[mask]`: the filtered table. */
  function Apply(rows: seq<Row>, roles: RoleMap, c: Criteria): (r: seq<Row>)
    ensures |r| == CountTrue(Mask(rows, roles, c))
    ensures IsSubsequence(r, rows)
  {
    Select(rows, Mask(rows, roles, c))
  }

  /** The filtered table is exactly the rows passing every filter, in original order. */
  lemma ApplyIsKeep(rows: seq<Row>, roles: RoleMap, c: Criteria)
    ensures Apply(rows, roles, c) == Keep(rows, PassesFn(roles, c))
  {
    assert Mask(rows, roles, c) == MaskOf(rows, PassesFn(roles, c));
    SelectMaskOfIsKeep(rows, PassesFn(roles, c));
  }

  /** A row is in the filtered table if and only if it is a row of the table passing every filter. */
  lemma FilteredRowsAreThePassingRows(rows: seq<Row>, roles: RoleMap, c: Criteria)
    ensures forall row :: row in Apply(rows, roles, c) <==> row in rows && Passes(row, roles, c)
  {
    ApplyIsKeep(rows, roles, c);
    KeepMembers(rows, PassesFn(roles, c));
  }

  /** Filtering a concatenation filters each part and keeps them in order. */
  lemma ApplyAppend(rows: seq<Row>, more: seq<Row>, roles: RoleMap, c: Criteria)
    ensures Apply(rows + more, roles, c) == Apply(rows, roles, c) + Apply(more, roles, c)
  {
    ApplyIsKeep(rows + more, roles, c);
    ApplyIsKeep(rows, roles, c);
    ApplyIsKeep(more, roles, c);
    KeepAppend(rows, more, PassesFn(roles, c));
  }

  /** Filtering the filtered table again with the same criteria changes nothing. */
  lemma ApplyIdempotent(rows: seq<Row>, roles: RoleMap, c: Criteria)
    ensures Apply(Apply(rows, roles, c), roles, c) == Apply(rows, roles, c)
  {
    ApplyIsKeep(rows, roles, c);
    ApplyIsKeep(Apply(rows, roles, c), roles, c);
    KeepIdempotent(rows, PassesFn(roles, c));
  }

  /** If every row passing `c` also passes `d`, filtering by `c` keeps a subsequence of filtering by `d`. */
  lemma ApplyNarrows(rows: seq<Row>, roles: RoleMap, c: Criteria, d: Criteria)
    requires forall row :: Passes(row, roles, c) ==> Passes(row, roles, d)
    ensures IsSubsequence(Apply(rows, roles, c), Apply(rows, roles, d))
  {
    ApplyIsKeep(rows, roles, c);
    ApplyIsKeep(rows, roles, d);
    KeepNarrows(rows, PassesFn(roles, c), PassesFn(roles, d));
  }

  /**
   Adding a filter never adds rows: the filtered table is a subsequence of the one obtained
   by clearing the location selection, the severity selection, or the date range.
   */
  lemma AddingFilterNeverAddsRows(rows: seq<Row>, roles: RoleMap, c: Criteria)
    ensures IsSubsequence(Apply(rows, roles, c), Apply(rows, roles, c.(locations := [])))
    ensures IsSubsequence(Apply(rows, roles, c), Apply(rows, roles, c.(severities := [])))
    ensures IsSubsequence(Apply(rows, roles, c), Apply(rows, roles, c.(dateRange := [])))
  {
    ApplyNarrows(rows, roles, c, c.(locations := []));
    ApplyNarrows(rows, roles, c, c.(severities := []));
    ApplyNarrows(rows, roles, c, c.(dateRange := []));
  }

  /**
   With no complete date range and empty selections nothing is filtered out, whatever
   roles were resolved.
   */
  lemma NoCriteriaKeepsEveryRow(rows: seq<Row>, roles: RoleMap, range: seq<int>)
    requires |range| != 2
    ensures Apply(rows, roles, Criteria(range, [], [])) == rows
  {
    ApplyIsKeep(rows, roles, Criteria(range, [], []));
    KeepAll(rows, PassesFn(roles, Criteria(range, [], [])));
  }

  /**
   An unresolved role or an empty selection leaves its predicate true for every row;
   otherwise the row must carry one of the selected values.
   */
  lemma CategoryPredicateCases(row: Row, col: Option<string>, sel: seq<string>)
    ensures col.None? || |sel| == 0 ==> PassesCategory(row, col, sel)
    ensures col.Some? && |sel| > 0 ==>
      (PassesCategory(row, col, sel) <==> col.value in row.cells && row.cells[col.value] in sel)
  {
  }
}

=== FILE: scenarios.dfy ===
/**
 Worked examples: a typical accident-data header, a one-day date range, a large
 coordinate table and an empty selection.
 */
module Scenarios {
  import opened Wrappers
  import opened Text
  import opened Schema
  import opened Table
  import opened Filter
  import opened Aggregate

  /**
   The header of the usual road-accident export, entry by entry: `Accident Date`,
   `Junction_Location`, `Accident_Severity`, `Number_of_Casualties`, `Speed_limit`,
   `Day_of_Week`, `Weather_Conditions`, `Road_Surface_Conditions`, `Latitude`, `Longitude`.
   */
  predicate IsUsualHeader(cols: seq<string>)
  {
    && |cols| == 10
    && cols[0] == "Accident Date"
    && cols[1] == "Junction_Location"
    && cols[2] == "Accident_Severity"
    && cols[3] == "Number_of_Casualties"
    && cols[4] == "Speed_limit"
    && cols[5] == "Day_of_Week"
    && cols[6] == "Weather_Conditions"
    && cols[7] == "Road_Surface_Conditions"
    && cols[8] == "Latitude"
    && cols[9] == "Longitude"
  }

  /** `col`, lower-cased, holds `sub` at position `i`. */
  lemma FoundAt(col: string, sub: string, i: nat)
    requires i + |sub| <= |col|
    requires forall k :: 0 <= k < |sub| ==> LowerChar(col[i + k]) == sub[k]
    ensures Contains(Lower(col), sub)
  {
    var low := Lower(col);
    assert low[i..i + |sub|] == sub;
    OccursImpliesContains(low, sub, i);
  }

  // Each column lemma takes the name as a parameter pinned by `requires`: stated over the
  // literal alone, the proof unfolds the whole string and runs out of resource.
  lemma LocationColumn(col: string)
    requires col == "Junction_Location"
    ensures Matches(Location, col)
  {
    FoundAt(col, "location", 9);
  }

  lemma SeverityColumn(col: string)
    requires col == "Accident_Severity"
    ensures Matches(Severity, col)
  {
    FoundAt(col, "severity", 9);
  }

  lemma SpeedColumn(col: string)
    requires col == "Speed_limit"
    ensures Matches(Speed, col)
  {
    FoundAt(col, "speed", 0);
    FoundAt(col, "limit", 6);
  }

  lemma WeatherColumn(col: string)
    requires col == "Weather_Conditions"
    ensures Matches(Weather, col)
  {
    FoundAt(col, "weather", 0);
  }

  lemma RoadColumn(col: string)
    requires col == "Road_Surface_Conditions"
    ensures Matches(Road, col)
  {
    FoundAt(col, "road", 0);
    FoundAt(col, "condition", 13);
  }

  /** The five substring roles resolve on the usual road-accident header. */
  lemma UsualHeaderResolvesSubstringRoles(cols: seq<string>)
    requires IsUsualHeader(cols)
    ensures Resolve(cols).location.Some? && Resolve(cols).severity.Some?
    ensures Resolve(cols).speed.Some? && Resolve(cols).weather.Some? && Resolve(cols).road.Some?
  {
    LocationColumn(cols[1]);
    MatchingColumnResolves(cols, Location, 1);
    SeverityColumn(cols[2]);
    MatchingColumnResolves(cols, Severity, 2);
    SpeedColumn(cols[4]);
    MatchingColumnResolves(cols, Speed, 4);
    WeatherColumn(cols[6]);
    MatchingColumnResolves(cols, Weather, 6);
    RoadColumn(cols[7]);
    MatchingColumnResolves(cols, Road, 7);
  }

  /** Every one of the nine roles resolves on the usual road-accident header. */
  lemma UsualHeaderResolvesEveryRole(cols: seq<string>)
    requires IsUsualHeader(cols)
    ensures forall role :: Resolve(cols).Get(role).Some?
  {
    UsualHeaderResolvesSubstringRoles(cols);
    MatchingColumnResolves(cols, Casualties, 3);
    MatchingColumnResolves(cols, Day, 5);
    MatchingColumnResolves(cols, Lat, 8);
    MatchingColumnResolves(cols, Long, 9);
  }

  /** Alias rules are case-sensitive: `lat` and `Lat` name the latitude, `LAT` does not. */
  lemma AliasesAreCaseSensitive()
    ensures Matches(Lat, "lat") && Matches(Lat, "Lat") && !Matches(Lat, "LAT")
  {
  }

  /**
   A single-day range keeps exactly the rows of that day: three rows on day `d` and two
   on the next day give a total of three.
   */
  lemma OneDayRangeKeepsThatDay(d: int, roles: RoleMap)
    ensures var a, b := Row(d, map[]), Row(d + 1, map[]);
      var rows := [a, a, a, b, b];
      Apply(rows, roles, Criteria([d, d], [], [])) == [a, a, a]
      && TotalAccidents(Apply(rows, roles, Criteria([d, d], [], []))) == 3
  {
    var a, b := Row(d, map[]), Row(d + 1, map[]);
    var rows := [a, a, a, b, b];
    var c := Criteria([d, d], [], []);
    var p := PassesFn(roles, c);
    ApplyIsKeep(rows, roles, c);
    assert p(a) && !p(b);
    assert Keep([b], p) == [] by {
      assert [b][1..] == [];
    }
    assert Keep([b, b], p) == [] by {
      assert [b, b][1..] == [b];
    }
    assert Keep([a, b, b], p) == [a] by {
      assert [a, b, b][1..] == [b, b];
    }
    assert Keep([a, a, b, b], p) == [a, a] by {
      assert [a, a, b, b][1..] == [a, b, b];
    }
    assert Keep(rows, p) == [a, a, a] by {
      assert rows[1..] == [a, a, b, b];
    }
  }

  /**
   When every filtered row has both coordinates and there are more than `MapCap` of them,
   the map shows exactly the first `MapCap` rows.
   */
  lemma LargeTableMapsFirstRows(filtered: seq<Row>, roles: RoleMap)
    requires roles.lat.Some? && roles.long.Some?
    requires forall row :: row in filtered ==> HasCoordinates(row, roles.lat.value, roles.long.value)
    requires |filtered| > MapCap
    ensures MapPoints(filtered, roles) == Some(filtered[..MapCap])
  {
    KeepAll(filtered, HasCoordinatesFn(roles.lat.value, roles.long.value));
  }

  /** On an empty selection the total is zero and every count table is empty. */
  lemma EmptySelectionSummary(roles: RoleMap)
    ensures TotalAccidents([]) == 0
    ensures DailyTrend([]) == []
    ensures SeverityCounts([], roles) == if roles.severity.Some? then Some([]) else None
    ensures WeatherTop([], roles) == if roles.weather.Some? then Some([]) else None
    ensures MapPoints([], roles) == if roles.lat.Some? && roles.long.Some? then Some([]) else None
  {
  }
}

=== FILE: schema.dfy ===
/**
 The column-role resolver: for each of nine semantic roles it picks the first column,
 in the table's column order, whose name satisfies that role's rule, or leaves the role
 unresolved.
 */
module Schema {
  import opened Wrappers
  import opened Text

  /** The nine roles the dashboard looks for, in the order of its `columns_info` table. */
  datatype Role = Location | Severity | Casualties | Speed | Day | Weather | Road | Lat | Long

  const CasualtyAliases: seq<string> := ["Number_of_Casualties", "Casualties", "Total_Casualties"]
  const DayAliases: seq<string> := ["Day_of_Week", "DayOfWeek", "Day"]
  const LatAliases: seq<string> := ["Latitude", "Lat", "lat"]
  const LongAliases: seq<string> := ["Longitude", "Long", "lon", "lng"]

  /** Roles whose rule is a case-insensitive substring test on the column name. */
  predicate IsSubstringRole(role: Role)
  {
    role in {Location, Severity, Speed, Weather, Road}
  }

  /** The exact, case-sensitive alias list of a role that has one. */
  function Aliases(role: Role): seq<string>
    requires !IsSubstringRole(role)
  {
    match role
    case Casualties => CasualtyAliases
    case Day => DayAliases
    case Lat => LatAliases
    case Long => LongAliases
  }

  /** The rule a column name must satisfy to play `role`. */
  predicate Matches(role: Role, col: string)
  {
    match role
    case Location => Contains(Lower(col), "location") || Contains(Lower(col), "place")
    case Severity => Contains(Lower(col), "severity")
    case Casualties => col in CasualtyAliases
    case Speed => Contains(Lower(col), "speed") && Contains(Lower(col), "limit")
    case Day => col in DayAliases
    case Weather => Contains(Lower(col), "weather")
    case Road => Contains(Lower(col), "road") && Contains(Lower(col), "condition")
    case Lat => col in LatAliases
    case Long => col in LongAliases
  }

  /** `cols[i]` is the first column satisfying the rule of `role`. */
  predicate IsFirstMatch(cols: seq<string>, role: Role, i: int)
  {
    && 0 <= i < |cols|
    && Matches(role, cols[i])
    && forall j :: 0 <= j < i ==> !Matches(role, cols[j])
  }

  /**
   Python's `next((col for col in cols if rule(col)), None)`: the first column
   satisfying the rule, or `None` when no column does.
   */
  function FirstMatch(cols: seq<string>, role: Role): (r: Option<string>)
    ensures r.None? <==> forall c :: c in cols ==> !Matches(role, c)
    ensures r.Some? ==> exists i :: IsFirstMatch(cols, role, i) && cols[i] == r.value
  {
    if cols == [] then None
    else if Matches(role, cols[0]) then Some(cols[0])
    else
      var rest := FirstMatch(cols[1..], role);
      assert forall c :: c in cols ==> c == cols[0] || c in cols[1..];
      if rest.Some? then
        var i :| IsFirstMatch(cols[1..], role, i) && cols[1..][i] == rest.value;
        assert IsFirstMatch(cols, role, i + 1);
        rest
      else
        rest
  }

  /** The resolved role map: one optional column name per role (`columns_info`). */
  datatype RoleMap = RoleMap(
    location: Option<string>,
    severity: Option<string>,
    casualties: Option<string>,
    speed: Option<string>,
    day: Option<string>,
    weather: Option<string>,
    road: Option<string>,
    lat: Option<string>,
    long: Option<string>)
  {
    function Get(role: Role): Option<string>
    {
      match role
      case Location => location
      case Severity => severity
      case Casualties => casualties
      case Speed => speed
      case Day => day
      case Weather => weather
      case Road => road
      case Lat => lat
      case Long => long
    }
  }

  /**
   Builds the role map from the ordered column names: every role is resolved to the
   first column in column order satisfying its rule, and to a column of the table.
   */
  function Resolve(cols: seq<string>): (m: RoleMap)
    ensures forall role :: m.Get(role) == FirstMatch(cols, role)
  {
    RoleMap(
      FirstMatch(cols, Location),
      FirstMatch(cols, Severity),
      FirstMatch(cols, Casualties),
      FirstMatch(cols, Speed),
      FirstMatch(cols, Day),
      FirstMatch(cols, Weather),
      FirstMatch(cols, Road),
      FirstMatch(cols, Lat),
      FirstMatch(cols, Long))
  }

  /**
   Each role of the resolved map names the first column in column order satisfying the
   role's rule, and is unresolved exactly when no column satisfies it.
   */
  lemma ResolvedRoleIsFirstMatch(cols: seq<string>, role: Role)
    ensures Resolve(cols).Get(role).None? <==> forall c :: c in cols ==> !Matches(role, c)
    ensures Resolve(cols).Get(role).Some? ==>
      exists i :: IsFirstMatch(cols, role, i) && cols[i] == Resolve(cols).Get(role).value
  {
  }

  /** A role resolves as soon as any column satisfies its rule. */
  lemma MatchingColumnResolves(cols: seq<string>, role: Role, i: int)
    requires 0 <= i < |cols| && Matches(role, cols[i])
    ensures Resolve(cols).Get(role).Some?
  {
    ResolvedRoleIsFirstMatch(cols, role);
  }

  /** A substring rule reads the column name only through its lower-cased form. */
  lemma SubstringRulesIgnoreCase(role: Role, a: string, b: string)
    requires IsSubstringRole(role)
    requires Lower(a) == Lower(b)
    ensures Matches(role, a) <==> Matches(role, b)
  {
  }

  /** An alias rule is exact, case-sensitive membership in the role's alias list. */
  lemma AliasRulesAreExact(role: Role, col: string)
    requires !IsSubstringRole(role)
    ensures Matches(role, col) <==> col in Aliases(role)
  {
  }

  /** No rule accepts the empty column name. */
  lemma {:induction false} EmptyNameMatchesNothing(role: Role)
    ensures !Matches(role, "")
  {
    assert Lower("") == "";
    EmptyContainsNothing("location");
    EmptyContainsNothing("place");
    EmptyContainsNothing("severity");
    EmptyContainsNothing("speed");
    EmptyContainsNothing("weather");
    EmptyContainsNothing("road");
  }

  /**
   A resolved role never names the empty column, so Python's truthiness test
   `if columns_info[role]` holds exactly when the role is resolved.
   */
  lemma ResolvedNamesAreNonEmpty(cols: seq<string>, role: Role)
    requires Resolve(cols).Get(role).Some?
    ensures Resolve(cols).Get(role).value != ""
  {
    EmptyNameMatchesNothing(role);
  }

  /**
   Columns after the first match are irrelevant: appending columns never changes a role
   that is already resolved, and an unresolved role is resolved by the appended part alone.
   */
  lemma {:induction false} FirstMatchAppend(cols: seq<string>, more: seq<string>, role: Role)
    ensures FirstMatch(cols + more, role) ==
      if FirstMatch(cols, role).Some? then FirstMatch(cols, role) else FirstMatch(more, role)
  {
    if cols == [] {
      assert cols + more == more;
    } else {
      assert (cols + more)[1..] == cols[1..] + more;
      FirstMatchAppend(cols[1..], more, role);
    }
  }
}

=== FILE: table.dfy ===
/**
 The record table: rows that always carry an accident date (a day number) and otherwise
 hold optional cells keyed by column name, together with the order-preserving selection
 operations the filter and the aggregates are built from.
 */
module Table {
  import opened Wrappers

  /** One accident record. A column absent from `cells` is a missing (NaN/None) value. */
  datatype Row = Row(date: int, cells: map<string, string>)

  /** The value of column `col` in `row`, or `None` when the cell is missing. */
  function Cell(row: Row, col: string): (r: Option<string>)
    ensures r.Some? <==> col in row.cells
    ensures r.Some? ==> r.value == row.cells[col]
  {
    if col in row.cells then Some(row.cells[col]) else None
  }

  /** Number of `true` entries of a boolean mask. */
  function CountTrue(mask: seq<bool>): nat
  {
    if mask == [] then 0 else (if mask[0] then 1 else 0) + CountTrue(mask[1..])
  }

  /** `a` can be obtained from `b` by deleting elements, keeping the order of the rest. */
  predicate IsSubsequence<T(==)>(a: seq<T>, b: seq<T>)
    decreases |b|
  {
    if a == [] then true
    else if b == [] then false
    else (a[0] == b[0] && IsSubsequence(a[1..], b[1..])) || IsSubsequence(a, b[1..])
  }

  /** pandas boolean indexing `xs[mask]`: the entries whose mask entry is true, in order. */
  function Select<T(==)>(xs: seq<T>, mask: seq<bool>): (r: seq<T>)
    requires |mask| == |xs|
    ensures |r| == CountTrue(mask)
    ensures IsSubsequence(r, xs)
  {
    if xs == [] then []
    else if mask[0] then [xs[0]] + Select(xs[1..], mask[1..])
    else Select(xs[1..], mask[1..])
  }

  /** Selection works entry by entry: a one-entry table is kept exactly when its mask entry is true. */
  lemma SelectOne<T>(x: T, b: bool)
    ensures Select([x], [b]) == if b then [x] else []
  {
  }

  /**
   Selecting from a concatenation with the concatenated mask selects from each part.
   With `SelectOne` this fixes which entries are kept, for any mask.
   */
  lemma {:induction false} SelectAppend<T>(xs: seq<T>, m: seq<bool>, ys: seq<T>, n: seq<bool>)
    requires |m| == |xs| && |n| == |ys|
    ensures Select(xs + ys, m + n) == Select(xs, m) + Select(ys, n)
  {
    if xs != [] {
      assert (xs + ys)[1..] == xs[1..] + ys;
      assert (m + n)[1..] == m[1..] + n;
      SelectAppend(xs[1..], m[1..], ys, n);
      if m[0] {
        assert [xs[0]] + (Select(xs[1..], m[1..]) + Select(ys, n))
          == ([xs[0]] + Select(xs[1..], m[1..])) + Select(ys, n);
      }
    } else {
      assert xs + ys == ys && m + n == n;
    }
  }

  /** The mask that evaluates `p` on every entry of `xs`. */
  function MaskOf<T>(xs: seq<T>, p: T -> bool): (m: seq<bool>)
    ensures |m| == |xs|
    ensures forall i :: 0 <= i < |xs| ==> m[i] == p(xs[i])
  {
    seq(|xs|, i requires 0 <= i < |xs| => p(xs[i]))
  }

  /** Reference definition: keep, in order, exactly the entries satisfying `p`. */
  function Keep<T>(xs: seq<T>, p: T -> bool): seq<T>
  {
    if xs == [] then [] else (if p(xs[0]) then [xs[0]] else []) + Keep(xs[1..], p)
  }

  /** Selecting with the mask of `p` is keeping the entries that satisfy `p`. */
  lemma {:induction false} SelectMaskOfIsKeep<T>(xs: seq<T>, p: T -> bool)
    ensures Select(xs, MaskOf(xs, p)) == Keep(xs, p)
  {
    if xs != [] {
      assert MaskOf(xs, p)[1..] == MaskOf(xs[1..], p);
      SelectMaskOfIsKeep(xs[1..], p);
    }
  }

  /** Every kept entry satisfies `p`, and every entry satisfying `p` is kept. */
  lemma {:induction false} KeepMembers<T>(xs: seq<T>, p: T -> bool)
    ensures forall x :: x in Keep(xs, p) <==> x in xs && p(x)
  {
    if xs != [] {
      KeepMembers(xs[1..], p);
      assert forall x :: x in xs <==> x == xs[0] || x in xs[1..];
    }
  }

  /** Keeping distributes over concatenation: the relative order of rows is preserved. */
  lemma {:induction false} KeepAppend<T>(xs: seq<T>, ys: seq<T>, p: T -> bool)
    ensures Keep(xs + ys, p) == Keep(xs, p) + Keep(ys, p)
  {
    if xs == [] {
      assert xs + ys == ys;
    } else {
      var head := if p(xs[0]) then [xs[0]] else [];
      assert (xs + ys)[0] == xs[0];
      assert (xs + ys)[1..] == xs[1..] + ys;
      assert Keep(xs + ys, p) == head + Keep(xs[1..] + ys, p);
      KeepAppend(xs[1..], ys, p);
      assert head + (Keep(xs[1..], p) + Keep(ys, p)) == (head + Keep(xs[1..], p)) + Keep(ys, p);
    }
  }

  /** Keeping twice with the same predicate keeps nothing more and nothing less. */
  lemma {:induction false} KeepIdempotent<T>(xs: seq<T>, p: T -> bool)
    ensures Keep(Keep(xs, p), p) == Keep(xs, p)
  {
    if xs != [] {
      KeepIdempotent(xs[1..], p);
      if p(xs[0]) {
        assert ([xs[0]] + Keep(xs[1..], p))[1..] == Keep(xs[1..], p);
      } else {
        assert ([] + Keep(xs[1..], p)) == Keep(xs[1..], p);
      }
    }
  }

  /** A subsequence stays a subsequence when the longer sequence gains a new head. */
  lemma {:induction false} SubsequenceCons<T>(a: seq<T>, b: seq<T>, x: T)
    requires IsSubsequence(a, b)
    ensures IsSubsequence(a, [x] + b)
  {
    assert ([x] + b)[1..] == b;
    if a != [] {
      assert IsSubsequence(a, ([x] + b)[1..]);
    }
  }

  /** Keeping with a stronger predicate yields a subsequence of keeping with a weaker one. */
  lemma {:induction false} KeepNarrows<T>(xs: seq<T>, p: T -> bool, q: T -> bool)
    requires forall x :: x in xs && p(x) ==> q(x)
    ensures IsSubsequence(Keep(xs, p), Keep(xs, q))
  {
    if xs != [] {
      assert forall x :: x in xs[1..] ==> x in xs;
      KeepNarrows(xs[1..], p, q);
      var kp, kq := Keep(xs[1..], p), Keep(xs[1..], q);
      if p(xs[0]) {
        assert ([xs[0]] + kp)[1..] == kp && ([xs[0]] + kq)[1..] == kq;
        assert ([xs[0]] + kp)[0] == ([xs[0]] + kq)[0];
      } else if q(xs[0]) {
        assert [] + kp == kp;
        SubsequenceCons(kp, kq, xs[0]);
      } else {
        assert [] + kp == kp && [] + kq == kq;
      }
    }
  }

  /** A predicate that holds of every entry keeps the whole sequence. */
  lemma {:induction false} KeepAll<T>(xs: seq<T>, p: T -> bool)
    requires forall x :: x in xs ==> p(x)
    ensures Keep(xs, p) == xs
  {
    if xs != [] {
      assert forall x :: x in xs[1..] ==> x in xs;
      KeepAll(xs[1..], p);
      assert [xs[0]] + xs[1..] == xs;
    }
  }

  /** Every prefix of a sequence is a subsequence of it. */
  lemma {:induction false} PrefixIsSubsequence<T>(xs: seq<T>, n: nat)
    requires n <= |xs|
    ensures IsSubsequence(xs[..n], xs)
  {
    if n > 0 {
      PrefixIsSubsequence(xs[1..], n - 1);
      assert xs[..n][1..] == xs[1..][..n - 1];
    }
  }

  /** A subsequence takes no element more often than the sequence holds it. */
  lemma {:induction false} SubsequenceMultiset<T>(a: seq<T>, b: seq<T>)
    requires IsSubsequence(a, b)
    ensures multiset(a) <= multiset(b)
    decreases |b|
  {
    if a != [] {
      assert b == [b[0]] + b[1..];
      if a[0] == b[0] && IsSubsequence(a[1..], b[1..]) {
        SubsequenceMultiset(a[1..], b[1..]);
        assert a == [a[0]] + a[1..];
      } else {
        SubsequenceMultiset(a, b[1..]);
      }
    }
  }

  /** A subsequence of a subsequence is a subsequence. */
  lemma {:induction false} SubsequenceTransitive<T>(a: seq<T>, b: seq<T>, c: seq<T>)
    requires IsSubsequence(a, b) && IsSubsequence(b, c)
    ensures IsSubsequence(a, c)
    decreases |c|
  {
    if a != [] {
      if b[0] == c[0] && IsSubsequence(b[1..], c[1..]) {
        if a[0] == b[0] && IsSubsequence(a[1..], b[1..]) {
          SubsequenceTransitive(a[1..], b[1..], c[1..]);
        } else {
          SubsequenceTransitive(a, b[1..], c[1..]);
        }
      } else {
        SubsequenceTransitive(a, b, c[1..]);
      }
    }
  }
}

=== FILE: tally.dfy ===
/**
 Count tables: lists of (key, count) pairs as pandas `groupby(...).size()` and
 `value_counts()` produce them, and the `nlargest` selection over them.
 */
module Tally {

  /** One entry of a count table. */
  datatype Count<K> = Count(key: K, n: nat)

  /** The count recorded for `k`, or 0 when `k` is not a key of the table. */
  function Lookup<K(==)>(t: seq<Count<K>>, k: K): nat
  {
    if t == [] then 0 else if t[0].key == k then t[0].n else Lookup(t[1..], k)
  }

  /** The set of keys of a table. */
  function KeySet<K>(t: seq<Count<K>>): set<K>
  {
    if t == [] then {} else {t[0].key} + KeySet(t[1..])
  }

  /** Sum of the counts of a table. */
  function Total<K>(t: seq<Count<K>>): nat
  {
    if t == [] then 0 else t[0].n + Total(t[1..])
  }

  predicate DistinctKeys<K(==)>(t: seq<Count<K>>)
  {
    forall i, j :: 0 <= i < j < |t| ==> t[i].key != t[j].key
  }

  predicate AllPositive<K>(t: seq<Count<K>>)
  {
    forall i :: 0 <= i < |t| ==> t[i].n >= 1
  }

  predicate StrictlyAscending(t: seq<Count<int>>)
  {
    forall i, j :: 0 <= i < j < |t| ==> t[i].key < t[j].key
  }

  /** Counts are non-increasing along the table. */
  predicate Descending<K>(t: seq<Count<K>>)
  {
    forall i, j :: 0 <= i < j < |t| ==> t[i].n >= t[j].n
  }

  /** Number of occurrences of `x` in `xs`. */
  function Occurrences<K(==)>(xs: seq<K>, x: K): nat
  {
    multiset(xs)[x]
  }

  // ---------------------------------------------------------------------------------
  // value_counts: keys in order of first appearance

  /** Records one more occurrence of `v`: bump its entry, or append a new entry of 1. */
  function Bump<K(==)>(t: seq<Count<K>>, v: K): (r: seq<Count<K>>)
    ensures |r| == |t| || |r| == |t| + 1
  {
    if t == [] then [Count(v, 1)]
    else if t[0].key == v then [Count(v, t[0].n + 1)] + t[1..]
    else [t[0]] + Bump(t[1..], v)
  }

  /** Bumping `v` raises the count of `v` by one and leaves every other count alone. */
  lemma {:induction false} BumpLookup<K>(t: seq<Count<K>>, v: K, k: K)
    ensures Lookup(Bump(t, v), k) == Lookup(t, k) + (if k == v then 1 else 0)
  {
    if t != [] && t[0].key != v {
      BumpLookup(t[1..], v, k);
    }
  }

  /** Bumping `v` adds `v` to the keys, adds one to the total, and keeps counts positive. */
  lemma {:induction false} BumpShape<K>(t: seq<Count<K>>, v: K)
    ensures KeySet(Bump(t, v)) == KeySet(t) + {v}
    ensures Total(Bump(t, v)) == Total(t) + 1
    ensures AllPositive(t) ==> AllPositive(Bump(t, v))
  {
    if t != [] {
      var r := Bump(t, v);
      if t[0].key == v {
        assert r[1..] == t[1..];
      } else {
        BumpShape(t[1..], v);
        assert r[1..] == Bump(t[1..], v);
      }
    }
  }

  /** Bumping keeps the keys of a table distinct. */
  lemma {:induction false} BumpDistinct<K>(t: seq<Count<K>>, v: K)
    requires DistinctKeys(t)
    ensures DistinctKeys(Bump(t, v))
  {
    var r := Bump(t, v);
    if t != [] && t[0].key != v {
      var rest := Bump(t[1..], v);
      assert r == [t[0]] + rest;
      BumpDistinct(t[1..], v);
      BumpShape(t[1..], v);
      assert t[0].key !in KeySet(t[1..]) by {
        forall j | 0 <= j < |t| - 1
          ensures t[1..][j].key != t[0].key
        {
          assert t[1..][j] == t[j + 1];
        }
        NoEntryNotInKeySet(t[1..], t[0].key);
      }
      forall a, b | 0 <= a < b < |r|
        ensures r[a].key != r[b].key
      {
        assert r[b] == rest[b - 1];
        if a > 0 {
          assert r[a] == rest[a - 1];
        } else {
          EntryInKeySet(rest, b - 1);
        }
      }
    } else if t != [] {
      assert forall j :: 0 < j < |r| ==> r[j] == t[j];
    }
  }

  /**
   `value_counts()` over the non-missing values `vals`: one entry per distinct value,
   keys in order of first appearance, each counting the occurrences of its value.
   */
  function ValueCounts<K(==,!new)>(vals: seq<K>): (t: seq<Count<K>>)
    ensures forall k :: Lookup(t, k) == Occurrences(vals, k)
    ensures KeySet(t) == set v | v in vals
    ensures Total(t) == |vals|
    ensures DistinctKeys(t)
    ensures AllPositive(t)
  {
    if vals == [] then []
    else
      var init, last := vals[..|vals| - 1], vals[|vals| - 1];
      assert vals == init + [last];
      assert multiset(vals) == multiset(init) + multiset{last};
      assert (set v | v in vals) == (set v | v in init) + {last};
      var prev := ValueCounts(init);
      assert forall k :: Lookup(Bump(prev, last), k) == Lookup(prev, k) + (if k == last then 1 else 0) by {
        forall k {
          BumpLookup(prev, last, k);
        }
      }
      BumpShape(prev, last);
      BumpDistinct(prev, last);
      Bump(prev, last)
  }

  // ---------------------------------------------------------------------------------
  // groupby(date).size(): keys in ascending order

  /** Records one more row on day `d` in an ascending table, keeping it ascending. */
  function InsertDay(t: seq<Count<int>>, d: int): (r: seq<Count<int>>)
    requires StrictlyAscending(t)
    ensures StrictlyAscending(r)
    ensures |r| > 0 && (r[0].key == d || (|t| > 0 && r[0].key == t[0].key))
  {
    if t == [] then [Count(d, 1)]
    else if t[0].key == d then [Count(d, t[0].n + 1)] + t[1..]
    else if d < t[0].key then [Count(d, 1)] + t
    else
      var rest := InsertDay(t[1..], d);
      var r := [t[0]] + rest;
      assert forall j :: 0 < j < |r| ==> r[j] == rest[j - 1];
      r
  }

  /** Inserting day `d` raises the count of `d` by one and leaves every other day alone. */
  lemma {:induction false} InsertDayLookup(t: seq<Count<int>>, d: int, k: int)
    requires StrictlyAscending(t)
    ensures Lookup(InsertDay(t, d), k) == Lookup(t, k) + (if k == d then 1 else 0)
  {
    if t != [] {
      if d < t[0].key && k == d {
        KeySetMembers(t);
        LookupMissing(t, d);
      } else if d > t[0].key {
        InsertDayLookup(t[1..], d, k);
      }
    }
  }

  /** Inserting day `d` adds `d` to the keys, adds one to the total, and keeps counts positive. */
  lemma {:induction false} InsertDayShape(t: seq<Count<int>>, d: int)
    requires StrictlyAscending(t)
    ensures KeySet(InsertDay(t, d)) == KeySet(t) + {d}
    ensures Total(InsertDay(t, d)) == Total(t) + 1
    ensures AllPositive(t) ==> AllPositive(InsertDay(t, d))
  {
    if t != [] {
      var r := InsertDay(t, d);
      if t[0].key == d {
        assert r[1..] == t[1..];
      } else if d < t[0].key {
        assert r[1..] == t;
      } else {
        InsertDayShape(t[1..], d);
        assert r[1..] == InsertDay(t[1..], d);
      }
    }
  }

  /**
   The per-day row counts of the day numbers `days`: one entry per distinct day, in
   strictly ascending day order, each counting the occurrences of its day.
   */
  function DailyCounts(days: seq<int>): (t: seq<Count<int>>)
    ensures StrictlyAscending(t)
    ensures forall k :: Lookup(t, k) == Occurrences(days, k)
    ensures KeySet(t) == set d | d in days
    ensures Total(t) == |days|
    ensures AllPositive(t)
  {
    if days == [] then []
    else
      var init, last := days[..|days| - 1], days[|days| - 1];
      assert days == init + [last];
      assert multiset(days) == multiset(init) + multiset{last};
      assert (set d | d in days) == (set d | d in init) + {last};
      var prev := DailyCounts(init);
      assert forall k :: Lookup(InsertDay(prev, last), k) == Lookup(prev, k) + (if k == last then 1 else 0) by {
        forall k {
          InsertDayLookup(prev, last, k);
        }
      }
      InsertDayShape(prev, last);
      InsertDay(prev, last)
  }

  /** A key of the table is the key of one of its entries. */
  lemma {:induction false} KeySetHasEntry<K>(t: seq<Count<K>>, k: K) returns (i: nat)
    requires k in KeySet(t)
    ensures i < |t| && t[i].key == k
  {
    if t[0].key == k {
      i := 0;
    } else {
      var j := KeySetHasEntry(t[1..], k);
      i := j + 1;
    }
  }

  /** A key no entry carries is not in the key set. */
  lemma {:induction false} NoEntryNotInKeySet<K>(t: seq<Count<K>>, k: K)
    requires forall i :: 0 <= i < |t| ==> t[i].key != k
    ensures k !in KeySet(t)
  {
    if t != [] {
      assert forall i :: 0 <= i < |t| - 1 ==> t[1..][i] == t[i + 1];
      NoEntryNotInKeySet(t[1..], k);
    }
  }

  /** The key of every entry is in the key set. */
  lemma {:induction false} EntryInKeySet<K>(t: seq<Count<K>>, i: nat)
    requires i < |t|
    ensures t[i].key in KeySet(t)
  {
    if i > 0 {
      EntryInKeySet(t[1..], i - 1);
    }
  }

  /** The keys of a table are the keys of its entries. */
  lemma KeySetMembers<K>(t: seq<Count<K>>)
    ensures forall k :: k in KeySet(t) <==> exists i :: 0 <= i < |t| && t[i].key == k
  {
    forall k | k in KeySet(t)
      ensures exists i :: 0 <= i < |t| && t[i].key == k
    {
      var i := KeySetHasEntry(t, k);
    }
    forall i | 0 <= i < |t|
      ensures t[i].key in KeySet(t)
    {
      EntryInKeySet(t, i);
    }
  }

  /** A table whose keys are distinct has exactly as many entries as keys. */
  lemma {:induction false} DistinctKeyCount<K>(t: seq<Count<K>>)
    requires DistinctKeys(t)
    ensures |KeySet(t)| == |t|
  {
    if t != [] {
      assert DistinctKeys(t[1..]) by {
        forall i, j | 0 <= i < j < |t| - 1
          ensures t[1..][i].key != t[1..][j].key
        {
          assert t[1..][i] == t[i + 1] && t[1..][j] == t[j + 1];
        }
      }
      DistinctKeyCount(t[1..]);
      assert forall i :: 0 <= i < |t[1..]| ==> t[1..][i].key != t[0].key by {
        forall i | 0 <= i < |t[1..]|
          ensures t[1..][i].key != t[0].key
        {
          assert t[1..][i] == t[i + 1];
        }
      }
      NoEntryNotInKeySet(t[1..], t[0].key);
    }
  }

  /** A key the table does not hold is counted 0. */
  lemma {:induction false} LookupMissing<K>(t: seq<Count<K>>, k: K)
    requires k !in KeySet(t)
    ensures Lookup(t, k) == 0
  {
    if t != [] {
      LookupMissing(t[1..], k);
    }
  }

  /** In a table whose keys are distinct, every entry's count is what `Lookup` reports. */
  lemma {:induction false} LookupDistinct<K>(t: seq<Count<K>>, i: int)
    requires DistinctKeys(t)
    requires 0 <= i < |t|
    ensures Lookup(t, t[i].key) == t[i].n
  {
    if i > 0 {
      assert t[1..][i - 1] == t[i];
      LookupDistinct(t[1..], i - 1);
    }
  }

  // ---------------------------------------------------------------------------------
  // nlargest(n)

  /** Index of the first entry with the largest count. */
  function ArgMax<K>(t: seq<Count<K>>): (r: nat)
    requires |t| > 0
    ensures r < |t|
    ensures forall j :: 0 <= j < |t| ==> t[j].n <= t[r].n
    ensures forall j :: 0 <= j < r ==> t[j].n < t[r].n
  {
    if |t| == 1 then 0
    else
      var m := ArgMax(t[1..]);
      if t[0].n >= t[m + 1].n then 0 else m + 1
  }

  /** The table without its entry at index `i`. */
  function RemoveAt<K>(t: seq<Count<K>>, i: nat): (r: seq<Count<K>>)
    requires i < |t|
    ensures |r| == |t| - 1
    ensures forall j :: 0 <= j < i ==> r[j] == t[j]
    ensures forall j :: i <= j < |r| ==> r[j] == t[j + 1]
  {
    t[..i] + t[i + 1..]
  }

  /**
   `nlargest(n)`: the `n` entries with the largest counts (all of them when there are
   fewer), picked one at a time, ties going to the entry listed first.
   */
  function TopN<K>(t: seq<Count<K>>, n: nat): (r: seq<Count<K>>)
    ensures |r| == if n < |t| then n else |t|
    decreases n
  {
    if n == 0 || t == [] then []
    else
      var i := ArgMax(t);
      [t[i]] + TopN(RemoveAt(t, i), n - 1)
  }

  /** Every entry TopN lists is an entry of the table; `j` is where it sits there. */
  lemma {:induction false} TopNSource<K>(t: seq<Count<K>>, n: nat, m: int) returns (j: nat)
    requires 0 <= m < |TopN(t, n)|
    ensures j < |t| && t[j] == TopN(t, n)[m]
    decreases n
  {
    var i := ArgMax(t);
    var rem := RemoveAt(t, i);
    var rest := TopN(rem, n - 1);
    var r := [t[i]] + rest;
    assert TopN(t, n) == r;
    if m == 0 {
      j := i;
    } else {
      var k := TopNSource(rem, n - 1, m - 1);
      assert r[m] == rest[m - 1] == rem[k];
      j := if k < i then k else k + 1;
    }
  }

  /** An entry TopN leaves out has a count no larger than any entry it keeps. */
  lemma {:induction false} TopNKeepsLargest<K>(t: seq<Count<K>>, n: nat, j: int, m: int)
    requires 0 <= j < |t| && t[j] !in TopN(t, n)
    requires 0 <= m < |TopN(t, n)|
    ensures t[j].n <= TopN(t, n)[m].n
    decreases n
  {
    var i := ArgMax(t);
    var rem := RemoveAt(t, i);
    var rest := TopN(rem, n - 1);
    var r := [t[i]] + rest;
    assert TopN(t, n) == r;
    if m > 0 {
      assert r[0] == t[i];
      assert j != i;
      var k := if j < i then j else j - 1;
      assert rem[k] == t[j];
      forall q | 0 <= q < |rest|
        ensures rest[q] != rem[k]
      {
        assert rest[q] == r[q + 1];
      }
      assert r[m] == rest[m - 1];
      TopNKeepsLargest(rem, n - 1, k, m - 1);
    }
  }

  /** A key of a distinct-keyed table that TopN leaves out counts no more than any entry kept. */
  lemma LeftOutKeyIsNoLarger<K>(t: seq<Count<K>>, n: nat, k: K, m: int)
    requires DistinctKeys(t)
    requires k in KeySet(t) && k !in KeySet(TopN(t, n))
    requires 0 <= m < |TopN(t, n)|
    ensures Lookup(t, k) <= TopN(t, n)[m].n
  {
    var top := TopN(t, n);
    var i := KeySetHasEntry(t, k);
    LookupDistinct(t, i);
    forall q | 0 <= q < |top|
      ensures top[q] != t[i]
    {
      EntryInKeySet(top, q);
    }
    TopNKeepsLargest(t, n, i, m);
  }

  /** Prepending an entry that counts at least as much as every entry keeps a table descending. */
  lemma ConsDescending<K>(x: Count<K>, rest: seq<Count<K>>)
    requires Descending(rest)
    requires forall q :: 0 <= q < |rest| ==> rest[q].n <= x.n
    ensures Descending([x] + rest)
  {
    var r := [x] + rest;
    forall a, b | 0 <= a < b < |r|
      ensures r[a].n >= r[b].n
    {
      assert r[b] == rest[b - 1];
      if a > 0 {
        assert r[a] == rest[a - 1];
      }
    }
  }

  /** Prepending an entry with a fresh key keeps the keys distinct. */
  lemma ConsDistinct<K>(x: Count<K>, rest: seq<Count<K>>)
    requires DistinctKeys(rest)
    requires forall q :: 0 <= q < |rest| ==> rest[q].key != x.key
    ensures DistinctKeys([x] + rest)
  {
    var r := [x] + rest;
    forall a, b | 0 <= a < b < |r|
      ensures r[a].key != r[b].key
    {
      assert r[b] == rest[b - 1];
      if a > 0 {
        assert r[a] == rest[a - 1];
      }
    }
  }

  /** Removing an entry keeps the keys distinct. */
  lemma RemoveAtDistinct<K>(t: seq<Count<K>>, i: nat)
    requires i < |t| && DistinctKeys(t)
    ensures DistinctKeys(RemoveAt(t, i))
  {
    var rem := RemoveAt(t, i);
    forall a, b | 0 <= a < b < |rem|
      ensures rem[a].key != rem[b].key
    {
      var a', b' := if a < i then a else a + 1, if b < i then b else b + 1;
      assert rem[a] == t[a'] && rem[b] == t[b'];
    }
  }

  /** TopN lists its entries in non-increasing count order. */
  lemma {:induction false} TopNDescending<K>(t: seq<Count<K>>, n: nat)
    ensures Descending(TopN(t, n))
    decreases n
  {
    if n > 0 && t != [] {
      var i := ArgMax(t);
      var rem := RemoveAt(t, i);
      var rest := TopN(rem, n - 1);
      assert TopN(t, n) == [t[i]] + rest;
      TopNDescending(rem, n - 1);
      forall q | 0 <= q < |rest|
        ensures rest[q].n <= t[i].n
      {
        var k := TopNSource(rem, n - 1, q);
        assert rem[k] == t[if k < i then k else k + 1];
      }
      ConsDescending(t[i], rest);
    }
  }

  /** When the table's keys are distinct, so are the keys of its top entries. */
  lemma {:induction false} TopNDistinct<K>(t: seq<Count<K>>, n: nat)
    requires DistinctKeys(t)
    ensures DistinctKeys(TopN(t, n))
    decreases n
  {
    if n > 0 && t != [] {
      var i := ArgMax(t);
      var rem := RemoveAt(t, i);
      var rest := TopN(rem, n - 1);
      assert TopN(t, n) == [t[i]] + rest;
      RemoveAtDistinct(t, i);
      TopNDistinct(rem, n - 1);
      forall q | 0 <= q < |rest|
        ensures rest[q].key != t[i].key
      {
        var k := TopNSource(rem, n - 1, q);
        assert rem[k] == t[if k < i then k else k + 1];
      }
      ConsDistinct(t[i], rest);
    }
  }

  // ---------------------------------------------------------------------------------
  // value_counts().nlargest(n)

  /** Every entry of the `n` most frequent values carries its value's exact, positive count. */
  lemma TopCountsAreExact<K(!new)>(vals: seq<K>, n: nat)
    ensures var top := TopN(ValueCounts(vals), n);
      forall m :: 0 <= m < |top| ==> top[m].n == Occurrences(vals, top[m].key) >= 1
  {
    var counts := ValueCounts(vals);
    var top := TopN(counts, n);
    forall m | 0 <= m < |top|
      ensures top[m].n == Occurrences(vals, top[m].key) >= 1
    {
      var i := TopNSource(counts, n, m);
      LookupDistinct(counts, i);
    }
  }

  /** A value left out of the `n` most frequent occurs no more often than any value kept. */
  lemma TopCountsAreMostFrequent<K(!new)>(vals: seq<K>, n: nat)
    ensures var top := TopN(ValueCounts(vals), n);
      forall v, m :: v in vals && v !in KeySet(top) && 0 <= m < |top| ==> Occurrences(vals, v) <= top[m].n
  {
    var counts := ValueCounts(vals);
    var top := TopN(counts, n);
    forall v, m | v in vals && v !in KeySet(top) && 0 <= m < |top|
      ensures Occurrences(vals, v) <= top[m].n
    {
      LeftOutKeyIsNoLarger(counts, n, v, m);
    }
  }
}

=== FILE: text.dfy ===
/**
 ASCII lower-casing and substring search on strings, the two string operations the
 column-role rules use (`col.lower()` and `'x' in s`).
 */
module Text {

  /** An ASCII upper-case letter. */
  predicate IsUpper(c: char)
  {
    'A' <= c <= 'Z'
  }

  /** Lower-cases one ASCII letter; every other character is left alone. */
  function LowerChar(c: char): char
  {
    if IsUpper(c) then (c as int + 32) as char else c
  }

  /** ASCII `str.lower()`: same length, each character lower-cased, no upper-case letter left. */
  function Lower(s: string): (r: string)
    ensures |r| == |s|
    ensures forall i :: 0 <= i < |s| ==> r[i] == LowerChar(s[i])
    ensures forall i :: 0 <= i < |r| ==> !IsUpper(r[i])
  {
    if s == [] then [] else [LowerChar(s[0])] + Lower(s[1..])
  }

  /** `p` is a prefix of `s`. */
  predicate StartsWith(s: string, p: string)
  {
    |p| <= |s| && s[..|p|] == p
  }

  /** Python's `sub in s`, by scanning the start positions of `s` from the left. */
  predicate Contains(s: string, sub: string)
    decreases |s|
  {
    StartsWith(s, sub) || (|s| > 0 && Contains(s[1..], sub))
  }

  /** `sub` occurs in `s` at position `i`. */
  predicate OccursAt(s: string, sub: string, i: int)
  {
    0 <= i && i + |sub| <= |s| && s[i..i + |sub|] == sub
  }

  /** An occurrence at any position is found by the scan. */
  lemma {:induction false} OccursImpliesContains(s: string, sub: string, i: int)
    requires OccursAt(s, sub, i)
    ensures Contains(s, sub)
    decreases i
  {
    if i == 0 {
      assert s[..|sub|] == s[0..0 + |sub|];
    } else {
      assert s[1..][i - 1..i - 1 + |sub|] == s[i..i + |sub|];
      OccursImpliesContains(s[1..], sub, i - 1);
    }
  }

  /** The scan finds `sub` exactly when `sub` occurs at some position of `s`. */
  lemma {:induction false} ContainsIffOccurs(s: string, sub: string)
    ensures Contains(s, sub) <==> exists i :: OccursAt(s, sub, i)
    decreases |s|
  {
    forall i | OccursAt(s, sub, i)
      ensures Contains(s, sub)
    {
      OccursImpliesContains(s, sub, i);
    }
    if StartsWith(s, sub) {
      assert OccursAt(s, sub, 0);
    } else if |s| > 0 && Contains(s[1..], sub) {
      ContainsIffOccurs(s[1..], sub);
      var j :| OccursAt(s[1..], sub, j);
      assert s[j + 1..j + 1 + |sub|] == s[1..][j..j + |sub|];
      assert OccursAt(s, sub, j + 1);
    }
  }

  /** A non-empty pattern never occurs in the empty string. */
  lemma EmptyContainsNothing(sub: string)
    requires |sub| > 0
    ensures !Contains("", sub)
  {
  }
}

=== FILE: wrappers.dfy ===
/** Optional values: a column role that may be unresolved, a cell that may be missing. */
module Wrappers {

  /** The conventional Some/None datatype, standing in for Python's `None`. */
  datatype Option<+T> = None | Some(value: T)
}
